=== FILE: README.md ===
# Music news feed aggregator — a Dafny model

This project models the core of a small feed aggregator (`KnQ/app.py`). The
aggregator groups feed endpoints by music genre and fetches them. It
normalises every feed item into an article record and keeps the articles in
an in-memory cache keyed by genre. It answers queries by genre and free text,
latest first, capped at fifty articles.

The model is pure functions over immutable values:

- `Feeds`: the fetcher. `FetchFeedData` turns one parser outcome into at most
  ten articles. The outcome is an `Option<ParsedFeed>`, where `None` stands
  for any exception the parser raised.
- `Aggregator`: the genre registry (`RssFeeds`), the cache and the rebuild
  pass `UpdateCache`. The cache is a dictionary from genre to articles, plus a
  dictionary of timestamps. It also records the dictionary's key insertion
  order (`order`), because "all" concatenates the lists in that order.
  `Assign` follows Python's dictionary semantics: a key that is already
  present keeps its position, and a new key goes last. A pass gathers every
  genre's list (`GatherEach`) and then assigns the genres in registry order
  (`Install`). The parser outcomes do not depend on the cache, so this gives
  the same cache as the source's interleaving of fetches and assignments.
- `Ordering`: Python's `list.sort(key=published, reverse=True)`. This is a
  stable insertion sort on the raw `published` strings, latest first.
- `Query`: the body of `get_feeds`. It covers lazy initialisation
  (`LazyInit`), selection (`Select`), the case-insensitive filter (`Filter`,
  `Refine`), the sort, and the cap with total (`Answer`). It also covers the
  cache a request leaves behind (`SortInPlace`, `GetFeeds`).
- `Strings`: Python's `<` on `str` (`Less`), lower-casing (`Lower`) and the
  substring test `q in s` (`Contains`).
- `Optional` and `Seqs`: values that may be absent, with Python's
  `get(key, default)` (`Get`), and Python's slice `s[:n]` (`Take`).
- `Scenarios`: a worked example. One genre has two endpoints: the first
  carries two items and the second fails.

The network is a parameter. `parse: Url -> Option<ParsedFeed>` gives each
endpoint's parser outcome. The wall clock is a parameter too: `now: Stamp`.

Three behaviours of the code are easy to miss, and the model keeps them:

- Equal `published` keys keep their relative order, because Python's sort is
  stable even with `reverse=True`. `SortDescSpec` proves this stability, and
  `SortUnique` proves that no other stable ordering exists.
- "all" concatenates the genres in dictionary insertion order. That is the
  registry order for a cache built from empty (`SelectAllAfterFirstRebuild`).
- A request for one cached genre with no query sorts that genre's cached list
  in place (lines 78 and 90). So the query path does write to the cache.
  `SortInPlace` models this effect. `InPlaceSortUnobservable` proves that no
  later response can tell the difference.

The code and its own comment disagree in one place. The comment at line 69
says the cache is updated "if empty or old", but line 70 tests only for an
empty cache, and nothing reads the timestamps. `LazyInit` follows the code:
`LazyInitSpec` states that a populated cache is used as it is, however old
its timestamps are.

## Model

| member | source | states |
|---|---|---|
| Feeds.FetchFeedData | KnQ/app.py:33-49 | A fetch that raised contributes no articles; otherwise an endpoint contributes exactly min(10, number of parsed items) articles |
| Feeds.FetchFeedDataFields | KnQ/app.py:38-45 | Article i comes from item i: each field is the item's value when present, else "No Title" / "#" / "No summary available" / ""; every article's source is the feed title, else "Unknown Source" |
| Feeds.FetchIgnoresTail | KnQ/app.py:38 | Items after the tenth never affect the result |
| Feeds.FetchPrefix | KnQ/app.py:38-46 | Document order is kept: the first k items yield the first k articles |
| Feeds.NormalisePreservesPresentFields | KnQ/app.py:40-44 | Normalisation only fills missing fields; an item with every field present maps back to the same article |
| Seqs.Take | KnQ/app.py:93 | The slice `s[:n]` has min(n, len(s)) elements, and they are the first elements of s |
| Aggregator.RssFeedsShape | KnQ/app.py:9-27 | The shipped registry has four genres, no two alike |
| Aggregator.EmptyOrder | KnQ/app.py:70 | A well-formed cache has no keys exactly when its iteration order is empty |
| Aggregator.Assign | KnQ/app.py:54-58 | Dictionary assignment of a genre's list and time: the genre keeps its iteration position if it was a key and goes last otherwise; its properties are stated by `AssignWellFormed` |
| Aggregator.AssignWellFormed | KnQ/app.py:54-58 | Assigning a genre's list and time keeps the cache well formed and stores both under the genre; an existing genre keeps its iteration position and a new genre goes last |
| Aggregator.Gather | KnQ/app.py:54-57 | A genre's new list is its endpoints' fetched articles concatenated in endpoint order; `GatherAppend`, `GatherSkipsFailure` and `GatherBound` state its properties |
| Aggregator.GatherAppend | KnQ/app.py:55-57 | A genre's list is a concatenation over its endpoints, so gathering distributes over splitting the endpoint list |
| Aggregator.GatherSkipsFailure | KnQ/app.py:55-57 | An endpoint whose fetch raised is an empty segment; the other endpoints' articles stay in endpoint order |
| Aggregator.GatherBound | KnQ/app.py:38 | A genre holds at most ten articles per endpoint |
| Aggregator.UpdateCache | KnQ/app.py:51-58 | The rebuild pass assigns every registry genre, in registry order, its gathered list and the pass time; the `UpdateCache*` rows state its properties |
| Aggregator.InstallWellFormed | KnQ/app.py:53-58 | Assigning genres one after the other keeps the cache well formed |
| Aggregator.InstallValues | KnQ/app.py:53-58 | After assigning distinct genres in turn, each genre holds exactly its own list and the pass time |
| Aggregator.InstallOthers | KnQ/app.py:53-58 | A cached genre that is not assigned keeps its list and time |
| Aggregator.InstallKeys | KnQ/app.py:53-58 | The keys afterwards are the old keys plus the assigned genres, in both dictionaries |
| Aggregator.InstallOrderFresh | KnQ/app.py:53-54 | Distinct genres that were not cached are appended to the iteration order in assignment order |
| Aggregator.InstallOrderRefresh | KnQ/app.py:53-54 | Assigning genres that are all cached keeps the iteration order |
| Aggregator.UpdateCacheWellFormed | KnQ/app.py:51-58 | The rebuild pass keeps the cache well formed: distinct keys in iteration order, and the same keys in both dictionaries |
| Aggregator.UpdateCacheValues | KnQ/app.py:51-58 | After a pass, every registry genre is a key holding exactly the concatenation, in URL order, of its endpoints' articles, and the pass time |
| Aggregator.UpdateCacheKeys | KnQ/app.py:51-58 | After a pass, the keys of both dictionaries are the old keys plus the registry genres and nothing else |
| Aggregator.UpdateCacheOthers | KnQ/app.py:51-58 | A cached genre the registry does not name keeps its list and time |
| Aggregator.UpdateCacheOrderFresh | KnQ/app.py:53-54 | Genres new to the cache are appended in registry order, so the first pass orders the cache as the registry |
| Aggregator.UpdateCacheOrderRefresh | KnQ/app.py:53-54 | Refreshing genres that are already cached keeps the iteration order |
| Ordering.SortDesc | KnQ/app.py:90 | The sort keeps the number of articles; `SortDescSpec` and `SortUnique` state that it is the stable latest-first order |
| Ordering.SortDescSpec | KnQ/app.py:90 | The sort's result is non-increasing in `published` for every pair of positions, is a permutation of its input, and is stable: per key, articles keep their input order |
| Ordering.NoDateLast | KnQ/app.py:43-90 | In the sorted result, articles without a date come after every article with one |
| Ordering.SortUnique | KnQ/app.py:90 | Any sorted sequence that keeps each key's articles in input order equals the sort's result, so the sort is the unique stable descending order |
| Ordering.SortSameKeyed | KnQ/app.py:90 | Inputs that differ only by a stable reordering sort to the same result |
| Ordering.SortIdempotent | KnQ/app.py:90 | Sorting a sorted result again changes nothing |
| Strings.LessIff | KnQ/app.py:90 | Python's `a < b` on strings holds exactly when some position settles it: the strings agree before it, and there `a` has ended while `b` goes on, or `a` has the smaller code point |
| Strings.PrefixLess | KnQ/app.py:90 | A proper prefix is smaller than the longer string |
| Strings.EmptyLeast | KnQ/app.py:43 | The empty string, the default date, is below every non-empty string and above none |
| Strings.LessTrichotomy | KnQ/app.py:90 | Python's string order is total: two strings are equal or one is smaller |
| Strings.LessTransitive | KnQ/app.py:90 | Python's string order is transitive |
| Strings.LessAsymmetric | KnQ/app.py:90 | Python's string order is strict: a < b excludes b < a |
| Strings.AtLeastTransitive | KnQ/app.py:90 | "Not smaller than" is transitive, which a descending order relies on |
| Strings.LessAfterCommonPrefix | KnQ/app.py:90 | A common prefix does not decide the comparison; the rest of the strings does |
| Strings.Lower | KnQ/app.py:67 | Lower-casing keeps the length |
| Strings.LowerIsLower | KnQ/app.py:84-85 | A lowered string has no ASCII upper-case letter A-Z, and lowering it again changes nothing |
| Strings.ContainsIff | KnQ/app.py:84-85 | `q in s` holds exactly when q occurs in s at some position |
| Strings.ContainsChar | KnQ/app.py:84-85 | A one-character query occurs exactly when that character is in the string |
| Strings.ContainsEmpty | KnQ/app.py:81 | The empty query occurs in every string |
| Query.Select | KnQ/app.py:73-78 | "all" selects as many articles as all cached lists hold together; a cached genre selects exactly its cached list; a genre that is neither "all" nor cached selects nothing |
| Query.Filter | KnQ/app.py:81-87 | The filter never lengthens the list, and every kept article comes from the input and matches the query |
| Query.Refine | KnQ/app.py:81-87 | Refining by a query, empty or not, never adds an article |
| Query.FlattenLength | KnQ/app.py:73-76 | The "all" selection has as many articles as all cached lists together |
| Query.FlattenRegistry | KnQ/app.py:73-76 | Concatenating lists that hold each genre's gathered articles yields the registry-order concatenation of all endpoints' articles |
| Query.SelectAllAfterFirstRebuild | KnQ/app.py:70-76 | After the first rebuild, "all" selects every genre's articles in registry order, each genre's in endpoint order |
| Query.AnswerUnknownGenre | KnQ/app.py:78 | A genre that is neither "all" nor cached gives no articles and total 0 |
| Query.FilterAppend | KnQ/app.py:81-87 | Filtering preserves order: it distributes over concatenation |
| Query.FilterCount | KnQ/app.py:81-87 | A matching article is kept as often as it occurs, and a non-matching one never |
| Query.FilterMembers | KnQ/app.py:84-86 | An article is kept iff it is in the input and the lowered query occurs in its lowered title or lowered summary |
| Query.RefineEmpty | KnQ/app.py:81 | The empty query keeps every article in order |
| Query.FilterWithPublished | KnQ/app.py:81-90 | Filtering commutes with picking out one `published` key |
| Query.ShownFacts | KnQ/app.py:90-93 | The returned prefix is sorted and holds only selected articles that match a non-empty query |
| Query.Answer | KnQ/app.py:73-95 | `total` is the number of filtered articles; `articles` is the first min(50, total) of them sorted latest first; every returned article was selected and matches a non-empty query |
| Query.SortInPlace | KnQ/app.py:78-90 | A request for one cached genre without a query leaves that genre's list sorted latest first, with the same articles and the same per-key order; every other list, the keys, the iteration order and the timestamps are unchanged; for "all", a non-empty query or an unknown genre the cache is unchanged |
| Query.GetFeeds | KnQ/app.py:65-95 | A request leaves the cache well formed. A populated cache keeps its iteration order and timestamps. A cold start with a registry of distinct genres leaves the cache ordered as the registry, and non-empty for a non-empty registry. A single cached genre asked for without a query is left sorted latest first |
| Query.LazyInit | KnQ/app.py:70-71 | Lazy initialisation leaves the cache well formed |
| Query.FirstRebuild | KnQ/app.py:51-58 | The first pass over the empty cache orders it as the registry, caches every registry genre's gathered articles, and leaves a non-empty cache for a non-empty registry |
| Query.LazyInitSpec | KnQ/app.py:70-71 | An empty cache is rebuilt first, so afterwards every registry genre is cached in registry order and, for a non-empty registry, the cache is non-empty; a populated cache is used as it is |
| Query.ShippedColdStart | KnQ/app.py:70-71 | With the registry of lines 9-27, a cold start caches its four genres in registry order, so the cache is non-empty afterwards |
| Query.RefineSameKeyed | KnQ/app.py:81-87 | Filtering keeps two stably reordered inputs stably reordered |
| Query.FlattenSameKeyed | KnQ/app.py:73-76 | Concatenating stably reordered lists gives stably reordered results |
| Query.AnswerSameKeyed | KnQ/app.py:73-95 | Caches whose lists differ only by stable reorderings answer every query identically |
| Query.InPlaceSortUnobservable | KnQ/app.py:78-90 | After the in-place sort, every later query gets the same response as before it |
| Query.GetFeedsRepeatable | KnQ/app.py:65-95 | Repeating a request gives the same response |
| Scenarios.RebuildScenario | KnQ/app.py:51-58 | With endpoints u1 (two items) and u2 (fails), the first pass caches u1's two articles under the genre, and nothing from u2 |
| Scenarios.WarmCache | KnQ/app.py:70-71 | A cold-start request rebuilds the empty cache before selecting |
| Scenarios.ColdStartQuery | KnQ/app.py:65-95 | A cold-start query for the genre returns both articles, newer first, with total 2 |
| Scenarios.SortPair | KnQ/app.py:90 | Two articles already latest first stay in place |
| Scenarios.SortScenario | KnQ/app.py:90 | "2024-01-02" sorts before "2024-01-01" |
| Scenarios.MatchScenario | KnQ/app.py:84-85 | The query "y" matches the lowered title "y" but not "x" or "first" |
| Scenarios.LowerCaseQuery | KnQ/app.py:81-95 | The query "y" returns only the article titled "Y", with total 1 |
| Scenarios.UnknownGenreQuery | KnQ/app.py:78 | An unconfigured genre returns no articles and total 0 |
| Scenarios.DefaultSummaryMatchesY | KnQ/app.py:42 | An item without a summary gets "No summary available", so the query "y" matches every such article |

The remaining lemmas are proof steps for the rows above:
`InsertDescMultiset`, `InsertDescSorted`, `InsertDescKeys`,
`WithPublishedAppend`, `WithPublishedMember`, `SameKeyedEmpty`, `DecidedAtHead`, `SortedSameKeyedEqual`,
`LessIrreflexive`, `DistinctGenresOrder` and `AppendAssoc`.

## Left out

- The Flask routes, `request.args` with its defaults (`genre="all"`, `query=""`), `jsonify`, `render_template`, the `/` page and the `__main__` start-up are HTTP and UI plumbing. A request is modelled from its two strings onward.
- The `/api/refresh` route (lines 97-100) is `UpdateCache` on the current cache plus a constant success message. `UpdateCacheValues`, `UpdateCacheKeys`, `UpdateCacheOthers` and `UpdateCacheOrderRefresh` cover what it does to the cache.
- Network retrieval and XML parsing belong to the foreign feed parser. They are replaced by the `parse` parameter, so one URL has one outcome within a pass, even if it is listed twice.
- Only the parser call can raise; `entry.get` and `feed.feed.get` cannot. So a fetch is all-or-nothing, as `Option` models it. The error `print` at line 48 is left out.
- `datetime.now()` is read once per genre at line 58. The model records one opaque `now` per pass.
- Concurrency is left out. This covers overlapping refreshes, and readers that see a genre's list while lines 54-57 are still building it. `threading` is imported but never used.
- Strings.Lower: lowers only the ASCII letters A-Z. Python's `str.lower` also lowers letters of other alphabets and can change a string's length. So filters on non-ASCII text are not modelled exactly.

=== FILE: aggregator.dfy ===
/** The source registry, the in-memory cache and the pass that rebuilds it. */
module Aggregator {
  import opened Optional
  import opened Feeds
  import opened Seqs

  type Genre = string

  /** A wall-clock reading; the model never compares or orders stamps. */
  type Stamp = nat

  /** One registry row: a category and its endpoints, in order. */
  datatype Category = Category(genre: Genre, urls: seq<Url>)

  /** The registry is a dictionary literal, so its rows are in insertion
      order and no genre appears twice. */
  type Registry = seq<Category>

  predicate DistinctGenres(reg: Registry) {
    forall i, j :: 0 <= i < j < |reg| ==> reg[i].genre != reg[j].genre
  }

  /** The registry's genres in registry order. */
  function Genres(reg: Registry): (r: seq<Genre>)
    ensures |r| == |reg|
    ensures forall i :: 0 <= i < |reg| ==> r[i] == reg[i].genre
  {
    seq(|reg|, i requires 0 <= i < |reg| => reg[i].genre)
  }

  /** The registry the program ships with. */
  const RssFeeds: Registry := [
    Category("Rap / Hip Hop", [
      "https://www.hotnewhiphop.com/rss/news.xml",
      "https://www.xxlmag.com/feed/",
      "https://www.thefader.com/rss/news"]),
    Category("R&B", [
      "https://ratedrnb.com/feed/",
      "https://www.soulbounce.com/feed/"]),
    Category("Afrobeats", [
      "https://www.okayafrica.com/rss/",
      "https://notjustok.com/feed/"]),
    Category("Reggae / Dancehall", [
      "https://www.dancehallmag.com/feed",
      "https://unitedreggae.com/rss/"])
  ]

  lemma RssFeedsShape()
    ensures DistinctGenres(RssFeeds)
    ensures |RssFeeds| == 4
  {
  }

  predicate Distinct<T(==)>(s: seq<T>) {
    forall i, j :: 0 <= i < j < |s| ==> s[i] != s[j]
  }

  /** The two process-wide dictionaries: articles per genre (whose key
      insertion order is `order`) and the time of each genre's last pass. */
  datatype Cache = Cache(order: seq<Genre>, lists: map<Genre, seq<Article>>, stamps: map<Genre, Stamp>)

  const EmptyCache := Cache([], map[], map[])

  /** `order` lists each cached genre exactly once, and both dictionaries
      have the same keys. */
  ghost predicate WellFormed(c: Cache) {
    && Distinct(c.order)
    && (forall g :: g in c.lists <==> g in c.order)
    && c.stamps.Keys == c.lists.Keys
  }

  /** A cache has no keys exactly when its iteration order is empty. */
  lemma EmptyOrder(c: Cache)
    requires WellFormed(c)
    ensures c.lists == map[] <==> c.order == []
  {
    if c.order != [] {
      assert c.order[0] in c.lists;
    } else {
      assert c.lists.Keys == {};
    }
  }

  /** Dictionary assignment `feed_cache[g] = ...; cache_timestamp[g] = ...`:
      a genre already present keeps its position in iteration order, a new
      genre goes last. */
  function Assign(c: Cache, g: Genre, articles: seq<Article>, now: Stamp): Cache {
    Cache(
      if g in c.lists then c.order else c.order + [g],
      c.lists[g := articles],
      c.stamps[g := now])
  }

  /** Assignment keeps the cache well formed; the genre's position in
      iteration order is its old one if it was cached and the last one
      otherwise. */
  lemma AssignWellFormed(c: Cache, g: Genre, articles: seq<Article>, now: Stamp)
    requires WellFormed(c)
    ensures var r := Assign(c, g, articles, now);
      && WellFormed(r)
      && g in r.lists && r.lists[g] == articles && r.stamps[g] == now
      && (g in c.lists ==> r.order == c.order)
      && (g !in c.lists ==> r.order == c.order + [g])
  {
  }

  /** One genre's new list: each endpoint's articles, concatenated in
      endpoint order. */
  function Gather(urls: seq<Url>, parse: Url -> Option<ParsedFeed>): seq<Article>
    decreases |urls|
  {
    if |urls| == 0 then [] else FetchFeedData(parse(urls[0])) + Gather(urls[1..], parse)
  }

  /** Gathering distributes over the endpoint list. */
  lemma {:induction false} GatherAppend(u: seq<Url>, v: seq<Url>, parse: Url -> Option<ParsedFeed>)
    ensures Gather(u + v, parse) == Gather(u, parse) + Gather(v, parse)
    decreases |u|
  {
    if |u| == 0 {
      assert u + v == v;
    } else {
      var h := FetchFeedData(parse(u[0]));
      assert (u + v)[0] == u[0];
      assert (u + v)[1..] == u[1..] + v;
      GatherAppend(u[1..], v, parse);
      assert Gather(u + v, parse) == h + Gather(u[1..] + v, parse);
      assert h + (Gather(u[1..], parse) + Gather(v, parse)) == (h + Gather(u[1..], parse)) + Gather(v, parse);
    }
  }

  /** An endpoint whose fetch raised contributes an empty segment: the other
      endpoints' articles are concatenated as if it were not listed. */
  lemma GatherSkipsFailure(u: seq<Url>, bad: Url, v: seq<Url>, parse: Url -> Option<ParsedFeed>)
    requires parse(bad).None?
    ensures Gather(u + [bad] + v, parse) == Gather(u, parse) + Gather(v, parse)
  {
    assert Gather([bad], parse) == [] by {
      assert [bad][1..] == [];
      assert FetchFeedData(parse(bad)) == [];
    }
    GatherAppend(u, [bad], parse);
    GatherAppend(u + [bad], v, parse);
  }

  /** Each endpoint contributes at most ten articles. */
  lemma {:induction false} GatherBound(urls: seq<Url>, parse: Url -> Option<ParsedFeed>)
    ensures |Gather(urls, parse)| <= EntryCap * |urls|
    decreases |urls|
  {
    if |urls| > 0 {
      GatherBound(urls[1..], parse);
    }
  }

  /** Every registry genre's new list, in registry order. */
  function GatherEach(reg: Registry, parse: Url -> Option<ParsedFeed>): (r: seq<seq<Article>>)
    ensures |r| == |reg|
    ensures forall i :: 0 <= i < |reg| ==> r[i] == Gather(reg[i].urls, parse)
  {
    seq(|reg|, i requires 0 <= i < |reg| => Gather(reg[i].urls, parse))
  }

  /** Assigning the genres `gs` their lists `ls`, one after the other. */
  function Install(c: Cache, gs: seq<Genre>, ls: seq<seq<Article>>, now: Stamp): Cache
    requires |gs| == |ls|
    decreases |gs|
  {
    if |gs| == 0 then c else Install(Assign(c, gs[0], ls[0], now), gs[1..], ls[1..], now)
  }

  /** The rebuild pass: every registry genre, in registry order, is assigned
      the concatenation of its endpoints' articles and the pass time. The
      parser outcomes do not depend on the cache, so gathering every genre's
      list before the first assignment gives the same cache as interleaving
      the two. */
  function UpdateCache(c: Cache, reg: Registry, parse: Url -> Option<ParsedFeed>, now: Stamp): Cache {
    Install(c, Genres(reg), GatherEach(reg, parse), now)
  }

  lemma {:induction false} InstallWellFormed(c: Cache, gs: seq<Genre>, ls: seq<seq<Article>>, now: Stamp)
    requires WellFormed(c) && |gs| == |ls|
    ensures WellFormed(Install(c, gs, ls, now))
    decreases |gs|
  {
    if |gs| > 0 {
      AssignWellFormed(c, gs[0], ls[0], now);
      InstallWellFormed(Assign(c, gs[0], ls[0], now), gs[1..], ls[1..], now);
    }
  }

  /** A pass keeps the cache well formed. */
  lemma UpdateCacheWellFormed(c: Cache, reg: Registry, parse: Url -> Option<ParsedFeed>, now: Stamp)
    requires WellFormed(c)
    ensures WellFormed(UpdateCache(c, reg, parse, now))
  {
    InstallWellFormed(c, Genres(reg), GatherEach(reg, parse), now);
  }

  lemma {:induction false} InstallValues(c: Cache, gs: seq<Genre>, ls: seq<seq<Article>>, now: Stamp)
    requires Distinct(gs) && |gs| == |ls|
    ensures var r := Install(c, gs, ls, now);
      forall i :: 0 <= i < |gs| ==> gs[i] in r.lists && gs[i] in r.stamps && r.lists[gs[i]] == ls[i] && r.stamps[gs[i]] == now
    decreases |gs|
  {
    if |gs| > 0 {
      var c' := Assign(c, gs[0], ls[0], now);
      InstallValues(c', gs[1..], ls[1..], now);
      InstallOthers(c', gs[1..], ls[1..], now, gs[0]);
      var r := Install(c, gs, ls, now);
      forall i | 0 < i < |gs|
        ensures gs[i] in r.lists && gs[i] in r.stamps && r.lists[gs[i]] == ls[i] && r.stamps[gs[i]] == now
      {
        assert gs[i] == gs[1..][i - 1];
      }
    }
  }

  lemma {:induction false} InstallOthers(c: Cache, gs: seq<Genre>, ls: seq<seq<Article>>, now: Stamp, g: Genre)
    requires g in c.lists && g in c.stamps && g !in gs && |gs| == |ls|
    ensures var r := Install(c, gs, ls, now);
      g in r.lists && g in r.stamps && r.lists[g] == c.lists[g] && r.stamps[g] == c.stamps[g]
    decreases |gs|
  {
    if |gs| > 0 {
      InstallOthers(Assign(c, gs[0], ls[0], now), gs[1..], ls[1..], now, g);
    }
  }

  lemma {:induction false} InstallKeys(c: Cache, gs: seq<Genre>, ls: seq<seq<Article>>, now: Stamp)
    requires |gs| == |ls|
    ensures var r := Install(c, gs, ls, now);
      forall g ::
        && (g in r.lists <==> g in c.lists || g in gs)
        && (g in r.stamps <==> g in c.stamps || g in gs)
    decreases |gs|
  {
    if |gs| > 0 {
      InstallKeys(Assign(c, gs[0], ls[0], now), gs[1..], ls[1..], now);
      forall g
        ensures g in gs <==> g == gs[0] || g in gs[1..]
      {
        assert gs == [gs[0]] + gs[1..];
      }
    }
  }

  lemma {:induction false} InstallOrderFresh(c: Cache, gs: seq<Genre>, ls: seq<seq<Article>>, now: Stamp)
    requires Distinct(gs) && |gs| == |ls|
    requires forall g :: g in gs ==> g !in c.lists
    ensures Install(c, gs, ls, now).order == c.order + gs
    decreases |gs|
  {
    if |gs| > 0 {
      var c' := Assign(c, gs[0], ls[0], now);
      assert gs[0] !in gs[1..];
      InstallOrderFresh(c', gs[1..], ls[1..], now);
      AppendAssoc(c.order, [gs[0]], gs[1..]);
      assert gs == [gs[0]] + gs[1..];
    }
  }

  lemma {:induction false} InstallOrderRefresh(c: Cache, gs: seq<Genre>, ls: seq<seq<Article>>, now: Stamp)
    requires |gs| == |ls|
    requires forall g :: g in gs ==> g in c.lists
    ensures Install(c, gs, ls, now).order == c.order
    decreases |gs|
  {
    if |gs| > 0 {
      InstallOrderRefresh(Assign(c, gs[0], ls[0], now), gs[1..], ls[1..], now);
    }
  }

  lemma DistinctGenresOrder(reg: Registry)
    ensures DistinctGenres(reg) <==> Distinct(Genres(reg))
  {
  }

  /** After a pass every registry genre is cached with exactly the
      concatenation, in endpoint order, of its endpoints' articles, and the
      pass time. */
  lemma UpdateCacheValues(c: Cache, reg: Registry, parse: Url -> Option<ParsedFeed>, now: Stamp)
    requires DistinctGenres(reg)
    ensures var r := UpdateCache(c, reg, parse, now);
      forall i :: 0 <= i < |reg| ==>
        reg[i].genre in r.lists && reg[i].genre in r.stamps
        && r.lists[reg[i].genre] == Gather(reg[i].urls, parse)
        && r.stamps[reg[i].genre] == now
  {
    DistinctGenresOrder(reg);
    InstallValues(c, Genres(reg), GatherEach(reg, parse), now);
  }

  /** A pass adds exactly the registry genres as keys of both dictionaries. */
  lemma UpdateCacheKeys(c: Cache, reg: Registry, parse: Url -> Option<ParsedFeed>, now: Stamp)
    ensures var r := UpdateCache(c, reg, parse, now);
      forall g ::
        && (g in r.lists <==> g in c.lists || g in Genres(reg))
        && (g in r.stamps <==> g in c.stamps || g in Genres(reg))
  {
    InstallKeys(c, Genres(reg), GatherEach(reg, parse), now);
  }

  /** A cached genre the registry does not name keeps its list and time. */
  lemma UpdateCacheOthers(c: Cache, reg: Registry, parse: Url -> Option<ParsedFeed>, now: Stamp, g: Genre)
    requires g in c.lists && g in c.stamps && g !in Genres(reg)
    ensures var r := UpdateCache(c, reg, parse, now);
      g in r.lists && g in r.stamps && r.lists[g] == c.lists[g] && r.stamps[g] == c.stamps[g]
  {
    InstallOthers(c, Genres(reg), GatherEach(reg, parse), now, g);
  }

  /** A pass over genres none of which is cached yet appends them to the
      iteration order in registry order; in particular the first pass over an
      empty cache orders the cache exactly as the registry. */
  lemma UpdateCacheOrderFresh(c: Cache, reg: Registry, parse: Url -> Option<ParsedFeed>, now: Stamp)
    requires DistinctGenres(reg)
    requires forall g :: g in Genres(reg) ==> g !in c.lists
    ensures UpdateCache(c, reg, parse, now).order == c.order + Genres(reg)
  {
    DistinctGenresOrder(reg);
    InstallOrderFresh(c, Genres(reg), GatherEach(reg, parse), now);
  }

  /** A refresh over genres that are all cached keeps the iteration order. */
  lemma UpdateCacheOrderRefresh(c: Cache, reg: Registry, parse: Url -> Option<ParsedFeed>, now: Stamp)
    requires forall g :: g in Genres(reg) ==> g in c.lists
    ensures UpdateCache(c, reg, parse, now).order == c.order
  {
    InstallOrderRefresh(c, Genres(reg), GatherEach(reg, parse), now);
  }
}

=== FILE: feeds.dfy ===
/** The fetcher: one feed endpoint, parsed by the external feed parser, is
    turned into at most ten normalised articles. The parser itself is not part
    of the model; its outcome for an endpoint is an `Option<ParsedFeed>`, with
    `None` standing for any exception raised while retrieving or parsing. */
module Feeds {
  import opened Optional
  import opened Seqs

  type Url = string

  /** One parsed feed item; every field may be missing from the document. */
  datatype Entry = Entry(
    title: Option<string>,
    link: Option<string>,
    summary: Option<string>,
    published: Option<string>)

  /** What the parser hands back: the feed-level title and the items. */
  datatype ParsedFeed = ParsedFeed(title: Option<string>, entries: seq<Entry>)

  /** The uniform article record served to callers. */
  datatype Article = Article(
    title: string,
    link: string,
    summary: string,
    published: string,
    source: string)

  /** Items kept per endpoint. */
  const EntryCap: nat := 10

  const NoTitle := "No Title"
  const NoLink := "#"
  const NoSummary := "No summary available"
  const NoDate := ""
  const UnknownSource := "Unknown Source"

  /** The display name every article of a feed carries. */
  function SourceName(feed: ParsedFeed): string {
    Get(feed.title, UnknownSource)
  }

  /** One item as an article, each missing field replaced by its default. */
  function Normalise(e: Entry, source: string): Article {
    Article(
      Get(e.title, NoTitle),
      Get(e.link, NoLink),
      Get(e.summary, NoSummary),
      Get(e.published, NoDate),
      source)
  }

  /** The articles one endpoint contributes: nothing when the parser raised,
      otherwise one article for each of the first ten items. */
  function FetchFeedData(parsed: Option<ParsedFeed>): (r: seq<Article>)
    ensures parsed.None? ==> r == []
    ensures parsed.Some? ==> |r| == Min(EntryCap, |parsed.value.entries|)
  {
    match parsed
    case None => []
    case Some(feed) =>
      var kept := Take(feed.entries, EntryCap);
      seq(|kept|, i requires 0 <= i < |kept| => Normalise(kept[i], SourceName(feed)))
  }

  /** Article `i` of a parsed feed comes from item `i`: each field is the
      item's own value when present and the fixed default when absent, and
      every article is labelled with the feed's title, or "Unknown Source"
      when the feed has none. */
  lemma FetchFeedDataFields(feed: ParsedFeed, i: nat)
    requires i < |FetchFeedData(Some(feed))|
    ensures var a := FetchFeedData(Some(feed))[i];
      var e := feed.entries[i];
      && (e.title.Some? ==> a.title == e.title.value)
      && (e.title.None? ==> a.title == NoTitle)
      && (e.link.Some? ==> a.link == e.link.value)
      && (e.link.None? ==> a.link == NoLink)
      && (e.summary.Some? ==> a.summary == e.summary.value)
      && (e.summary.None? ==> a.summary == NoSummary)
      && (e.published.Some? ==> a.published == e.published.value)
      && (e.published.None? ==> a.published == NoDate)
      && (feed.title.Some? ==> a.source == feed.title.value)
      && (feed.title.None? ==> a.source == UnknownSource)
  {
  }

  /** Items after the tenth never reach the cache: a feed and the same feed
      cut down to its first ten items yield the same articles. */
  lemma FetchIgnoresTail(title: Option<string>, entries: seq<Entry>, more: seq<Entry>)
    requires |entries| >= EntryCap
    ensures FetchFeedData(Some(ParsedFeed(title, entries + more)))
         == FetchFeedData(Some(ParsedFeed(title, entries)))
  {
    var a := FetchFeedData(Some(ParsedFeed(title, entries + more)));
    var b := FetchFeedData(Some(ParsedFeed(title, entries)));
    assert |a| == |b|;
    forall i | 0 <= i < |a|
      ensures a[i] == b[i]
    {
      assert (entries + more)[i] == entries[i];
    }
  }

  /** Document order is kept: the articles of the first `k` items are the
      first `k` articles of the whole feed. */
  lemma FetchPrefix(title: Option<string>, entries: seq<Entry>, k: nat)
    requires k <= |entries| && k <= EntryCap
    ensures FetchFeedData(Some(ParsedFeed(title, entries[..k])))
         == FetchFeedData(Some(ParsedFeed(title, entries)))[..k]
  {
  }

  /** An item whose every field is present comes back unchanged: the
      normalisation only fills gaps and never rewrites a supplied value. */
  lemma NormalisePreservesPresentFields(a: Article)
    ensures Normalise(Entry(Some(a.title), Some(a.link), Some(a.summary), Some(a.published)), a.source) == a
  {
  }
}

=== FILE: optional.dfy ===
/** Values that may be absent: a field the feed document did not carry, or a
    fetch whose parser raised instead of returning. */
module Optional {

  datatype Option<T> = None | Some(value: T)

  /** Python's `mapping.get(key, default)` on a field that may be missing. */
  function Get<T>(o: Option<T>, default: T): T {
    if o.Some? then o.value else default
  }
}

=== FILE: ordering.dfy ===
/** Python's `list.sort(key=published, reverse=True)`: a stable sort that puts
    later `published` strings first and keeps articles with equal keys in
    their original relative order. */
module Ordering {
  import opened Feeds
  import opened Strings

  /** Non-increasing `published` strings, for every pair of positions. */
  predicate SortedDesc(s: seq<Article>) {
    forall i, j :: 0 <= i < j < |s| ==> !Less(s[i].published, s[j].published)
  }

  /** The articles of `s` whose `published` string is `k`, in order. */
  function WithPublished(s: seq<Article>, k: string): seq<Article>
    decreases |s|
  {
    if |s| == 0 then []
    else (if s[0].published == k then [s[0]] else []) + WithPublished(s[1..], k)
  }

  /** `s` and `t` hold, for every key, the same articles in the same order:
      they differ at most by moving articles past others with a different
      key. This is what stability of a sort by key promises. */
  ghost predicate SameKeyed(s: seq<Article>, t: seq<Article>) {
    forall k :: WithPublished(s, k) == WithPublished(t, k)
  }

  /** Puts `a` in front of the first article of `s` that is not later than
      it, so that `a` precedes every article with its own key. */
  function InsertDesc(a: Article, s: seq<Article>): (r: seq<Article>)
    ensures |r| == |s| + 1
    decreases |s|
  {
    if |s| == 0 then [a]
    else if Less(a.published, s[0].published) then [s[0]] + InsertDesc(a, s[1..])
    else [a] + s
  }

  function SortDesc(s: seq<Article>): (r: seq<Article>)
    ensures |r| == |s|
    decreases |s|
  {
    if |s| == 0 then [] else InsertDesc(s[0], SortDesc(s[1..]))
  }

  lemma {:induction false} WithPublishedAppend(s: seq<Article>, t: seq<Article>, k: string)
    ensures WithPublished(s + t, k) == WithPublished(s, k) + WithPublished(t, k)
    decreases |s|
  {
    if |s| == 0 {
      assert s + t == t;
    } else {
      var h := if s[0].published == k then [s[0]] else [];
      assert (s + t)[0] == s[0];
      assert (s + t)[1..] == s[1..] + t;
      WithPublishedAppend(s[1..], t, k);
      assert WithPublished(s + t, k) == h + WithPublished(s[1..] + t, k);
      assert h + (WithPublished(s[1..], k) + WithPublished(t, k))
          == (h + WithPublished(s[1..], k)) + WithPublished(t, k);
    }
  }

  lemma {:induction false} WithPublishedMember(s: seq<Article>, k: string, a: Article)
    ensures a in WithPublished(s, k) <==> a in s && a.published == k
    decreases |s|
  {
    if |s| > 0 {
      WithPublishedMember(s[1..], k, a);
      assert s == [s[0]] + s[1..];
    }
  }

  lemma {:induction false} InsertDescMultiset(a: Article, s: seq<Article>)
    ensures multiset(InsertDesc(a, s)) == multiset{a} + multiset(s)
    decreases |s|
  {
    if |s| > 0 {
      InsertDescMultiset(a, s[1..]);
      assert s == [s[0]] + s[1..];
    }
  }

  lemma {:induction false} InsertDescSorted(a: Article, s: seq<Article>)
    requires SortedDesc(s)
    ensures SortedDesc(InsertDesc(a, s))
    decreases |s|
  {
    if |s| == 0 {
    } else if Less(a.published, s[0].published) {
      var t := s[1..];
      assert SortedDesc(t);
      InsertDescSorted(a, t);
      InsertDescMultiset(a, t);
      var r := InsertDesc(a, t);
      forall j | 0 <= j < |r|
        ensures !Less(s[0].published, r[j].published)
      {
        assert r[j] in multiset(r);
        if r[j] == a {
          LessAsymmetric(a.published, s[0].published);
        } else {
          assert r[j] in multiset(t);
          var m :| 0 <= m < |t| && t[m] == r[j];
          assert t[m] == s[m + 1];
        }
      }
    } else {
      forall j | 0 <= j < |s|
        ensures !Less(a.published, s[j].published)
      {
        if j > 0 {
          AtLeastTransitive(a.published, s[0].published, s[j].published);
        }
      }
    }
  }

  lemma {:induction false} InsertDescKeys(a: Article, s: seq<Article>, k: string)
    ensures WithPublished(InsertDesc(a, s), k)
         == (if a.published == k then [a] else []) + WithPublished(s, k)
    decreases |s|
  {
    var ha := if a.published == k then [a] else [];
    if |s| == 0 {
      assert WithPublished([a], k) == ha + WithPublished([a][1..], k);
    } else {
      var h0 := if s[0].published == k then [s[0]] else [];
      assert WithPublished(s, k) == h0 + WithPublished(s[1..], k);
      if Less(a.published, s[0].published) {
        var rest := InsertDesc(a, s[1..]);
        InsertDescKeys(a, s[1..], k);
        var r := [s[0]] + rest;
        assert InsertDesc(a, s) == r;
        assert r[0] == s[0] && r[1..] == rest;
        assert WithPublished(r, k) == h0 + WithPublished(rest, k);
        if a.published == k {
          LessIrreflexive(k);
          assert h0 == [];
        } else {
          assert ha == [];
        }
      } else {
        var r := [a] + s;
        assert InsertDesc(a, s) == r;
        assert r[0] == a && r[1..] == s;
        assert WithPublished(r, k) == ha + WithPublished(s, k);
      }
    }
  }

  /** The sort's result is ordered latest first, is a permutation of its
      input, and is stable: per key, articles keep their input order. */
  lemma {:induction false} SortDescSpec(s: seq<Article>)
    ensures SortedDesc(SortDesc(s))
    ensures multiset(SortDesc(s)) == multiset(s)
    ensures SameKeyed(SortDesc(s), s)
    decreases |s|
  {
    if |s| > 0 {
      SortDescSpec(s[1..]);
      InsertDescSorted(s[0], SortDesc(s[1..]));
      InsertDescMultiset(s[0], SortDesc(s[1..]));
      assert s == [s[0]] + s[1..];
      forall k
        ensures WithPublished(SortDesc(s), k) == WithPublished(s, k)
      {
        InsertDescKeys(s[0], SortDesc(s[1..]), k);
      }
    }
  }

  /** Sequences with the same articles per key are empty together. */
  lemma SameKeyedEmpty(r: seq<Article>, t: seq<Article>)
    requires SameKeyed(r, t)
    ensures |r| == 0 <==> |t| == 0
  {
    if |r| > 0 {
      WithPublishedMember(r, r[0].published, r[0]);
      assert WithPublished(t, r[0].published) != [];
    }
    if |t| > 0 {
      WithPublishedMember(t, t[0].published, t[0]);
      assert WithPublished(r, t[0].published) != [];
    }
  }

  /** Articles without a date (`published` defaults to the empty string)
      come last in the sort's result: nothing after one of them has a date. */
  lemma NoDateLast(s: seq<Article>)
    ensures var r := SortDesc(s);
      forall i, j :: 0 <= i < j < |r| && r[i].published == NoDate ==> r[j].published == NoDate
  {
    var r := SortDesc(s);
    SortDescSpec(s);
    forall i, j | 0 <= i < j < |r| && r[i].published == NoDate
      ensures r[j].published == NoDate
    {
      EmptyLeast(r[j].published);
    }
  }

  /** Two sequences that are both sorted and hold the same articles per key
      are equal. */
  lemma {:induction false} SortedSameKeyedEqual(r: seq<Article>, t: seq<Article>)
    requires SortedDesc(r) && SortedDesc(t) && SameKeyed(r, t)
    ensures r == t
    decreases |r|
  {
    SameKeyedEmpty(r, t);
    if |r| > 0 {
      var a, b := r[0].published, t[0].published;
      assert WithPublished(r, a)[0] == r[0];
      assert WithPublished(t, b)[0] == t[0];
      // some article of t carries r's first key, so t's first key is not smaller
      WithPublishedMember(t, a, r[0]);
      assert r[0] in WithPublished(t, a);
      var m :| 0 <= m < |t| && t[m] == r[0];
      LessIrreflexive(a);
      assert !Less(b, a);
      WithPublishedMember(r, b, t[0]);
      assert t[0] in WithPublished(r, b);
      var n :| 0 <= n < |r| && r[n] == t[0];
      LessIrreflexive(b);
      assert !Less(a, b);
      LessTrichotomy(a, b);
      assert a == b;
      assert r[0] == t[0];
      forall k
        ensures WithPublished(r[1..], k) == WithPublished(t[1..], k)
      {
        var head := if r[0].published == k then [r[0]] else [];
        assert WithPublished(r, k) == head + WithPublished(r[1..], k);
        assert WithPublished(t, k) == head + WithPublished(t[1..], k);
        assert WithPublished(r, k) == WithPublished(t, k);
        assert (head + WithPublished(r[1..], k))[|head|..] == WithPublished(r[1..], k);
        assert (head + WithPublished(t[1..], k))[|head|..] == WithPublished(t[1..], k);
      }
      SortedSameKeyedEqual(r[1..], t[1..]);
      assert r == [r[0]] + r[1..];
      assert t == [t[0]] + t[1..];
    }
  }

  /** The sort is the only stable descending ordering: any sorted sequence
      holding, per key, the same articles in the same order as `s` is
      `SortDesc(s)`. */
  lemma SortUnique(s: seq<Article>, r: seq<Article>)
    requires SortedDesc(r) && SameKeyed(r, s)
    ensures r == SortDesc(s)
  {
    SortDescSpec(s);
    SortedSameKeyedEqual(r, SortDesc(s));
  }

  /** Inputs that differ only by a stable reordering sort to the same result;
      in particular sorting an already sorted sequence changes nothing. */
  lemma SortSameKeyed(s: seq<Article>, t: seq<Article>)
    requires SameKeyed(s, t)
    ensures SortDesc(s) == SortDesc(t)
  {
    SortDescSpec(s);
    SortUnique(t, SortDesc(s));
  }

  lemma SortIdempotent(s: seq<Article>)
    ensures SortDesc(SortDesc(s)) == SortDesc(s)
  {
    SortDescSpec(s);
    SortSameKeyed(SortDesc(s), s);
  }
}

=== FILE: query.dfy ===
/** The query engine behind `/api/feeds`: lazy initialisation of the cache,
    selection by genre, the case-insensitive text filter, the latest-first
    sort and the cap of fifty articles. */
module Query {
  import opened Optional
  import opened Seqs
  import opened Strings
  import opened Feeds
  import opened Aggregator
  import opened Ordering

  /** The selector that asks for every genre at once. */
  const AllGenres := "all"

  /** Articles returned per response. */
  const ResultCap: nat := 50

  /** The JSON body `{articles, total}`. */
  datatype Response = Response(articles: seq<Article>, total: nat)

  /** Concatenation of the cached lists in dictionary iteration order. */
  function Flatten(order: seq<Genre>, lists: map<Genre, seq<Article>>): seq<Article>
    requires forall g :: g in order ==> g in lists
    decreases |order|
  {
    if |order| == 0 then [] else lists[order[0]] + Flatten(order[1..], lists)
  }

  /** Sum of the lengths of the lists named in `order`. */
  function CountAll(order: seq<Genre>, lists: map<Genre, seq<Article>>): nat
    requires forall g :: g in order ==> g in lists
    decreases |order|
  {
    if |order| == 0 then 0 else |lists[order[0]]| + CountAll(order[1..], lists)
  }

  /** The articles a selector picks before filtering. */
  function Select(c: Cache, genre: string): (r: seq<Article>)
    requires WellFormed(c)
    ensures genre == AllGenres ==> |r| == CountAll(c.order, c.lists)
    ensures genre != AllGenres && genre in c.lists ==> r == c.lists[genre]
    ensures genre != AllGenres && genre !in c.lists ==> r == []
  {
    if genre == AllGenres then
      FlattenLength(c.order, c.lists);
      Flatten(c.order, c.lists)
    else if genre in c.lists then c.lists[genre]
    else []
  }

  /** The (already lowered) query occurs in the lowered title or in the
      lowered summary. */
  predicate Matches(q: string, a: Article) {
    Contains(Lower(a.title), q) || Contains(Lower(a.summary), q)
  }

  /** The articles of `s` that match `q`, in their original order. */
  function Filter(q: string, s: seq<Article>): (r: seq<Article>)
    ensures |r| <= |s|
    ensures forall a :: a in r ==> a in s && Matches(q, a)
    decreases |s|
  {
    if |s| == 0 then []
    else (if Matches(q, s[0]) then [s[0]] else []) + Filter(q, s[1..])
  }

  /** Filtering happens only for a non-empty query. */
  function Refine(q: string, s: seq<Article>): (r: seq<Article>)
    ensures |r| <= |s|
    ensures forall a :: a in r ==> a in s
  {
    if |q| == 0 then s else Filter(q, s)
  }

  /** The response to a query over a populated cache: the first fifty
      articles, latest first, of the selected articles that match the query,
      and how many matched in all. */
  function Answer(c: Cache, genre: string, query: string): (r: Response)
    requires WellFormed(c)
    ensures r.total == |Refine(Lower(query), Select(c, genre))|
    ensures |r.articles| == Min(ResultCap, r.total)
    ensures r.articles == SortDesc(Refine(Lower(query), Select(c, genre)))[..|r.articles|]
    ensures SortedDesc(r.articles)
    ensures forall a :: a in r.articles ==> a in Select(c, genre)
    ensures query != [] ==> forall a :: a in r.articles ==> Matches(Lower(query), a)
  {
    var q := Lower(query);
    var sorted := SortDesc(Refine(q, Select(c, genre)));
    ShownFacts(q, Select(c, genre));
    Response(Take(sorted, ResultCap), |sorted|)
  }

  /** The shown prefix of the sorted, filtered selection is sorted and holds
      only selected articles that match a non-empty query. */
  lemma ShownFacts(q: string, sel: seq<Article>)
    ensures var shown := Take(SortDesc(Refine(q, sel)), ResultCap);
      && SortedDesc(shown)
      && (forall a :: a in shown ==> a in sel)
      && (q != [] ==> forall a :: a in shown ==> Matches(q, a))
  {
    var kept := Refine(q, sel);
    var sorted := SortDesc(kept);
    SortDescSpec(kept);
    FilterMembers(q, sel);
    var shown := Take(sorted, ResultCap);
    forall a | a in shown
      ensures a in kept
    {
      var i :| 0 <= i < |shown| && shown[i] == a;
      assert sorted[i] == a;
      assert a in multiset(sorted);
    }
  }

  /** Line 70's lazy initialisation: an empty cache is rebuilt first. */
  function LazyInit(c: Cache, reg: Registry, parse: Url -> Option<ParsedFeed>, now: Stamp): (r: Cache)
    requires WellFormed(c)
    ensures WellFormed(r)
  {
    if c.lists == map[] then
      UpdateCacheWellFormed(c, reg, parse, now);
      UpdateCache(c, reg, parse, now)
    else c
  }

  /** When a single cached genre is asked for without a query, line 78 hands
      back the cached list itself and line 90 sorts it in place: the cache
      then holds that genre's list sorted. */
  function SortInPlace(c: Cache, genre: string, query: string): (r: Cache)
    requires WellFormed(c)
    ensures WellFormed(r)
    ensures r.order == c.order && r.lists.Keys == c.lists.Keys && r.stamps == c.stamps
    ensures genre == AllGenres || Lower(query) != [] || genre !in c.lists ==> r == c
    ensures forall g :: g in c.lists && g != genre ==> r.lists[g] == c.lists[g]
    ensures genre != AllGenres && Lower(query) == [] && genre in c.lists ==>
      && SortedDesc(r.lists[genre])
      && multiset(r.lists[genre]) == multiset(c.lists[genre])
      && SameKeyed(r.lists[genre], c.lists[genre])
  {
    if genre != AllGenres && Lower(query) == [] && genre in c.lists then
      SortDescSpec(c.lists[genre]);
      c.(lists := c.lists[genre := SortDesc(c.lists[genre])])
    else c
  }

  /** The whole request: the cache afterwards and the response. */
  function GetFeeds(c: Cache, genre: string, query: string, reg: Registry,
                    parse: Url -> Option<ParsedFeed>, now: Stamp): (r: (Cache, Response))
    requires WellFormed(c)
    ensures WellFormed(r.0)
    ensures c.lists != map[] ==> r.0.order == c.order && r.0.stamps == c.stamps
    ensures c.lists == map[] && DistinctGenres(reg) ==> r.0.order == Genres(reg)
    ensures DistinctGenres(reg) && |reg| > 0 ==> r.0.lists != map[]
    ensures genre != AllGenres && Lower(query) == [] && genre in r.0.lists ==>
      SortedDesc(r.0.lists[genre])
  {
    var c1 := LazyInit(c, reg, parse, now);
    var result := (SortInPlace(c1, genre, query), Answer(c1, genre, query));
    if DistinctGenres(reg) then
      LazyInitSpec(c, reg, parse, now);
      result
    else result
  }

  // ---------------------------------------------------------------------
  // Selection

  /** The "all" selection has as many articles as all cached lists together. */
  lemma {:induction false} FlattenLength(order: seq<Genre>, lists: map<Genre, seq<Article>>)
    requires forall g :: g in order ==> g in lists
    ensures |Flatten(order, lists)| == CountAll(order, lists)
    decreases |order|
  {
    if |order| > 0 {
      FlattenLength(order[1..], lists);
    }
  }

  /** Every registry genre's gathered articles, concatenated in registry order. */
  function GatherAll(reg: Registry, parse: Url -> Option<ParsedFeed>): seq<Article>
    decreases |reg|
  {
    if |reg| == 0 then [] else Gather(reg[0].urls, parse) + GatherAll(reg[1..], parse)
  }

  lemma {:induction false} FlattenRegistry(reg: Registry, lists: map<Genre, seq<Article>>, parse: Url -> Option<ParsedFeed>)
    requires forall i :: 0 <= i < |reg| ==>
      reg[i].genre in lists && lists[reg[i].genre] == Gather(reg[i].urls, parse)
    ensures forall g :: g in Genres(reg) ==> g in lists
    ensures Flatten(Genres(reg), lists) == GatherAll(reg, parse)
    decreases |reg|
  {
    if |reg| > 0 {
      var rest := reg[1..];
      forall i | 0 <= i < |rest|
        ensures rest[i].genre in lists && lists[rest[i].genre] == Gather(rest[i].urls, parse)
      {
        assert rest[i] == reg[i + 1];
      }
      FlattenRegistry(rest, lists, parse);
      assert Genres(reg)[1..] == Genres(rest);
    }
  }

  /** After the first rebuild of an empty cache, selecting "all" yields every
      genre's articles in registry order, each genre's being its endpoints'
      articles in endpoint order. */
  lemma SelectAllAfterFirstRebuild(reg: Registry, parse: Url -> Option<ParsedFeed>, now: Stamp)
    requires DistinctGenres(reg)
    ensures var c := UpdateCache(EmptyCache, reg, parse, now);
      WellFormed(c) && Select(c, AllGenres) == GatherAll(reg, parse)
  {
    var c := UpdateCache(EmptyCache, reg, parse, now);
    assert WellFormed(c) by {
      UpdateCacheWellFormed(EmptyCache, reg, parse, now);
    }
    assert Flatten(c.order, c.lists) == GatherAll(reg, parse) by {
      FirstRebuild(reg, parse, now);
      FlattenRegistry(reg, c.lists, parse);
    }
  }

  /** A genre that is neither "all" nor cached gives an empty response. */
  lemma AnswerUnknownGenre(c: Cache, genre: string, query: string)
    requires WellFormed(c) && genre != AllGenres && genre !in c.lists
    ensures Answer(c, genre, query) == Response([], 0)
  {
  }

  // ---------------------------------------------------------------------
  // Filtering

  lemma {:induction false} FilterAppend(q: string, s: seq<Article>, t: seq<Article>)
    ensures Filter(q, s + t) == Filter(q, s) + Filter(q, t)
    decreases |s|
  {
    if |s| == 0 {
      assert s + t == t;
    } else {
      var h := if Matches(q, s[0]) then [s[0]] else [];
      assert (s + t)[0] == s[0];
      assert (s + t)[1..] == s[1..] + t;
      FilterAppend(q, s[1..], t);
      assert Filter(q, s + t) == h + Filter(q, s[1..] + t);
      assert h + (Filter(q, s[1..]) + Filter(q, t)) == (h + Filter(q, s[1..])) + Filter(q, t);
    }
  }

  /** An article is kept exactly as often as it occurs when it matches, and
      never when it does not. */
  lemma {:induction false} FilterCount(q: string, s: seq<Article>, a: Article)
    ensures multiset(Filter(q, s))[a] == if Matches(q, a) then multiset(s)[a] else 0
    decreases |s|
  {
    if |s| > 0 {
      FilterCount(q, s[1..], a);
      assert s == [s[0]] + s[1..];
    }
  }

  /** Kept articles are exactly the matching articles of the input. */
  lemma FilterMembers(q: string, s: seq<Article>)
    ensures forall a :: a in Filter(q, s) <==> a in s && Matches(q, a)
  {
    forall a
      ensures a in Filter(q, s) <==> a in s && Matches(q, a)
    {
      FilterCount(q, s, a);
      assert a in Filter(q, s) <==> a in multiset(Filter(q, s));
      assert a in s <==> a in multiset(s);
    }
  }

  /** The empty query keeps everything. */
  lemma RefineEmpty(s: seq<Article>)
    ensures Refine(Lower(""), s) == s
  {
  }

  /** Filtering commutes with picking out one `published` key. */
  lemma {:induction false} FilterWithPublished(q: string, s: seq<Article>, k: string)
    ensures WithPublished(Filter(q, s), k) == Filter(q, WithPublished(s, k))
    decreases |s|
  {
    if |s| > 0 {
      FilterWithPublished(q, s[1..], k);
      var head := if Matches(q, s[0]) then [s[0]] else [];
      WithPublishedAppend(head, Filter(q, s[1..]), k);
      var keyHead := if s[0].published == k then [s[0]] else [];
      FilterAppend(q, keyHead, WithPublished(s[1..], k));
    }
  }

  // ---------------------------------------------------------------------
  // The in-place sort is unobservable

  lemma RefineSameKeyed(q: string, s: seq<Article>, t: seq<Article>)
    requires SameKeyed(s, t)
    ensures SameKeyed(Refine(q, s), Refine(q, t))
  {
    if |q| > 0 {
      forall k
        ensures WithPublished(Filter(q, s), k) == WithPublished(Filter(q, t), k)
      {
        FilterWithPublished(q, s, k);
        FilterWithPublished(q, t, k);
        assert WithPublished(s, k) == WithPublished(t, k);
      }
    }
  }

  lemma {:induction false} FlattenSameKeyed(order: seq<Genre>, l1: map<Genre, seq<Article>>, l2: map<Genre, seq<Article>>)
    requires forall g :: g in order ==> g in l1 && g in l2 && SameKeyed(l1[g], l2[g])
    ensures SameKeyed(Flatten(order, l1), Flatten(order, l2))
    decreases |order|
  {
    if |order| > 0 {
      FlattenSameKeyed(order[1..], l1, l2);
      var g := order[0];
      forall k
        ensures WithPublished(Flatten(order, l1), k) == WithPublished(Flatten(order, l2), k)
      {
        WithPublishedAppend(l1[g], Flatten(order[1..], l1), k);
        WithPublishedAppend(l2[g], Flatten(order[1..], l2), k);
        assert WithPublished(l1[g], k) == WithPublished(l2[g], k);
        assert WithPublished(Flatten(order[1..], l1), k) == WithPublished(Flatten(order[1..], l2), k);
      }
    }
  }

  /** Two caches whose lists differ only by stable reorderings answer every
      query identically. */
  lemma AnswerSameKeyed(c1: Cache, c2: Cache, genre: string, query: string)
    requires WellFormed(c1) && WellFormed(c2)
    requires c1.order == c2.order
    requires forall g :: g in c1.lists ==> g in c2.lists && SameKeyed(c1.lists[g], c2.lists[g])
    ensures Answer(c1, genre, query) == Answer(c2, genre, query)
  {
    var s1, s2 := Select(c1, genre), Select(c2, genre);
    if genre == AllGenres {
      FlattenSameKeyed(c1.order, c1.lists, c2.lists);
    } else if genre in c1.lists {
    } else {
      assert genre !in c2.lists;
    }
    assert SameKeyed(s1, s2);
    RefineSameKeyed(Lower(query), s1, s2);
    SortSameKeyed(Refine(Lower(query), s1), Refine(Lower(query), s2));
  }

  /** Sorting a cached list in place, as a single-genre query without text
      does, changes no later response: the sort is stable, so the list keeps
      its per-key order, and every response sorts again. */
  lemma InPlaceSortUnobservable(c: Cache, genre: string, query: string, genre': string, query': string)
    requires WellFormed(c)
    ensures Answer(SortInPlace(c, genre, query), genre', query') == Answer(c, genre', query')
  {
    var c2 := SortInPlace(c, genre, query);
    forall g | g in c2.lists
      ensures g in c.lists && SameKeyed(c2.lists[g], c.lists[g])
    {
      if c2 != c && g == genre {
        SortDescSpec(c.lists[g]);
      }
    }
    AnswerSameKeyed(c2, c, genre', query');
  }

  // ---------------------------------------------------------------------
  // The whole request

  /** The first rebuild of the empty cache orders it as the registry and
      caches every registry genre's gathered articles. */
  lemma FirstRebuild(reg: Registry, parse: Url -> Option<ParsedFeed>, now: Stamp)
    requires DistinctGenres(reg)
    ensures var r := UpdateCache(EmptyCache, reg, parse, now);
      && r.order == Genres(reg)
      && (forall i :: 0 <= i < |reg| ==>
            reg[i].genre in r.lists && r.lists[reg[i].genre] == Gather(reg[i].urls, parse))
      && (|reg| > 0 ==> r.lists != map[])
  {
    var r := UpdateCache(EmptyCache, reg, parse, now);
    assert r.order == Genres(reg) by {
      UpdateCacheOrderFresh(EmptyCache, reg, parse, now);
      assert EmptyCache.order + Genres(reg) == Genres(reg);
    }
    UpdateCacheValues(EmptyCache, reg, parse, now);
    if |reg| > 0 {
      assert reg[0].genre in r.lists;
    }
  }

  /** An empty cache is rebuilt before selection, leaving every registry
      genre cached in registry order (and so a non-empty cache when the
      registry is non-empty); a populated cache is used as it is. */
  lemma LazyInitSpec(c: Cache, reg: Registry, parse: Url -> Option<ParsedFeed>, now: Stamp)
    requires WellFormed(c) && DistinctGenres(reg)
    ensures var r := LazyInit(c, reg, parse, now);
      && (c.lists != map[] ==> r == c)
      && (c.lists == map[] ==>
            && r.order == Genres(reg)
            && (forall i :: 0 <= i < |reg| ==>
                  reg[i].genre in r.lists && r.lists[reg[i].genre] == Gather(reg[i].urls, parse))
            && (|reg| > 0 ==> r.lists != map[]))
  {
    if c.lists == map[] {
      EmptyOrder(c);
      assert c == EmptyCache;
      FirstRebuild(reg, parse, now);
    }
  }

  /** A cold start with the registry the program ships with caches its four
      genres in registry order, so the cache is non-empty afterwards. */
  lemma ShippedColdStart(parse: Url -> Option<ParsedFeed>, now: Stamp)
    ensures var r := LazyInit(EmptyCache, RssFeeds, parse, now);
      && r.order == Genres(RssFeeds)
      && |r.order| == 4
      && r.lists != map[]
  {
    RssFeedsShape();
    LazyInitSpec(EmptyCache, RssFeeds, parse, now);
  }

  /** A repeated request sees the same response: the first request's only
      effect on a populated cache is the unobservable in-place sort. */
  lemma GetFeedsRepeatable(c: Cache, genre: string, query: string, reg: Registry,
                           parse: Url -> Option<ParsedFeed>, now: Stamp, now': Stamp)
    requires WellFormed(c) && DistinctGenres(reg) && |reg| > 0
    ensures var first := GetFeeds(c, genre, query, reg, parse, now);
      GetFeeds(first.0, genre, query, reg, parse, now').1 == first.1
  {
    LazyInitSpec(c, reg, parse, now);
    var c1 := LazyInit(c, reg, parse, now);
    var c2 := SortInPlace(c1, genre, query);
    assert c1.lists != map[];
    assert c2.lists != map[] by {
      var g :| g in c1.lists;
      assert g in c2.lists;
    }
    InPlaceSortUnobservable(c1, genre, query, genre, query);
  }
}

=== FILE: scenarios.dfy ===
/** Worked examples: a one-genre registry whose first endpoint carries two
    items and whose second endpoint fails. */
module Scenarios {
  import opened Optional
  import opened Strings
  import opened Feeds
  import opened Aggregator
  import opened Ordering
  import opened Query

  const Reg: Registry := [Category("Rap", ["u1", "u2"])]

  const FeedOne := ParsedFeed(Some("Feed One"), [
    Entry(Some("X"), Some("x-link"), Some("first"), Some("2024-01-02")),
    Entry(Some("Y"), Some("y-link"), Some("second"), Some("2024-01-01"))])

  /** The parser's outcome per endpoint: "u2" raises. */
  function Parse(u: Url): Option<ParsedFeed> {
    if u == "u1" then Some(FeedOne) else None
  }

  const ArticleX := Article("X", "x-link", "first", "2024-01-02", "Feed One")
  const ArticleY := Article("Y", "y-link", "second", "2024-01-01", "Feed One")

  /** The first rebuild caches the two articles of "u1" under "Rap" and
      nothing from the failing "u2". */
  lemma RebuildScenario()
    ensures var c := UpdateCache(EmptyCache, Reg, Parse, 0);
      c.order == ["Rap"] && c.lists == map["Rap" := [ArticleX, ArticleY]]
  {
    var one := FetchFeedData(Parse("u1"));
    assert one == [ArticleX, ArticleY];
    assert FetchFeedData(Parse("u2")) == [];
    assert Gather(["u1", "u2"], Parse) == [ArticleX, ArticleY] by {
      assert ["u1", "u2"][1..] == ["u2"];
      assert ["u2"][1..] == [];
    }
  }

  /** The cache after the first rebuild. */
  lemma WarmCache() returns (c: Cache)
    ensures WellFormed(c)
    ensures c == UpdateCache(EmptyCache, Reg, Parse, 0)
    ensures LazyInit(EmptyCache, Reg, Parse, 0) == c
    ensures Select(c, "Rap") == [ArticleX, ArticleY]
  {
    c := UpdateCache(EmptyCache, Reg, Parse, 0);
    UpdateCacheWellFormed(EmptyCache, Reg, Parse, 0);
    RebuildScenario();
    assert EmptyCache.lists == map[];
    assert c.lists["Rap"] == [ArticleX, ArticleY];
    assert "Rap" != AllGenres;
    assert "Rap" in c.lists;
  }

  /** A cold-start query for "Rap" rebuilds the cache and returns both
      articles, newer first. */
  lemma ColdStartQuery()
    ensures GetFeeds(EmptyCache, "Rap", "", Reg, Parse, 0).1 == Response([ArticleX, ArticleY], 2)
  {
    var c := WarmCache();
    assert Lower("") == "";
    SortScenario();
    assert Answer(c, "Rap", "") == Response([ArticleX, ArticleY], 2);
  }

  /** Two articles already latest first stay as they are. */
  lemma SortPair(a: Article, b: Article)
    requires !Less(a.published, b.published)
    ensures SortDesc([a, b]) == [a, b]
  {
    assert [a, b][1..] == [b];
    assert SortDesc([b]) == [b];
    assert InsertDesc(a, [b]) == [a] + [b];
  }

  /** "2024-01-02" sorts before "2024-01-01", so the pair is already in
      order. */
  lemma SortScenario()
    ensures SortDesc([ArticleX, ArticleY]) == [ArticleX, ArticleY]
  {
    var x, y := ArticleX.published, ArticleY.published;
    assert x[..9] == y[..9];
    LessAfterCommonPrefix(x, y, 9);
    assert x[9..] == "2" && y[9..] == "1";
    SortPair(ArticleX, ArticleY);
  }

  /** "y" occurs in the lowered title of the "Y" article and nowhere in the
      "X" article. */
  lemma MatchScenario()
    ensures !Matches("y", ArticleX)
    ensures Matches("y", ArticleY)
  {
    assert Lower("X") == "x";
    assert Lower("Y") == "y";
    assert Lower("first") == "first";
    ContainsChar("x", 'y');
    ContainsChar("first", 'y');
    ContainsChar("y", 'y');
  }

  /** Querying "y" keeps only the article titled "Y": the match is
      case-insensitive. */
  lemma LowerCaseQuery()
    ensures GetFeeds(EmptyCache, "Rap", "y", Reg, Parse, 0).1 == Response([ArticleY], 1)
  {
    var c := WarmCache();
    MatchScenario();
    assert Lower("y") == "y";
    assert Filter("y", [ArticleY]) == [ArticleY] by {
      assert [ArticleY][1..] == [];
      assert Filter("y", []) == [];
    }
    assert Filter("y", [ArticleX, ArticleY]) == [ArticleY] by {
      assert [ArticleX, ArticleY][1..] == [ArticleY];
    }
    assert Refine("y", Select(c, "Rap")) == [ArticleY];
    assert SortDesc([ArticleY]) == [ArticleY];
    assert Answer(c, "Rap", "y") == Response([ArticleY], 1);
  }

  /** A genre the registry does not configure gives nothing. */
  lemma UnknownGenreQuery()
    ensures GetFeeds(EmptyCache, "Jazz", "", Reg, Parse, 0).1 == Response([], 0)
  {
    RebuildScenario();
  }

  /** An item without a summary gets "No summary available", which contains
      the letter "y": the query "y" matches every such article. */
  lemma DefaultSummaryMatchesY(source: string)
    ensures Matches("y", Normalise(Entry(None, None, None, None), source))
  {
    assert Lower(NoSummary)[9..10] == "y";
    ContainsIff(Lower(NoSummary), "y");
    assert OccursAt(Lower(NoSummary), "y", 9);
  }
}

=== FILE: seqs.dfy ===
/** Sequence helpers shared by the model. */
module Seqs {

  function Min(a: int, b: int): int {
    if a <= b then a else b
  }

  lemma AppendAssoc<T>(a: seq<T>, b: seq<T>, c: seq<T>)
    ensures (a + b) + c == a + (b + c)
  {
  }

  /** Python's slice `s[:n]` for a non-negative `n`: the first `n` elements,
      or all of `s` when it is shorter. */
  function Take<T>(s: seq<T>, n: nat): (r: seq<T>)
    ensures |r| == Min(n, |s|)
    ensures forall i :: 0 <= i < |r| ==> r[i] == s[i]
    ensures |s| <= n ==> r == s
  {
    if |s| <= n then s else s[..n]
  }
}

=== FILE: strings.dfy ===
/** The three string operations the query engine relies on: Python's ordering
    of `str` values, lower-casing, and the substring test `q in s`. */
module Strings {

  /** Python's `a < b` on `str`: code points are compared left to right and a
      proper prefix is smaller than the longer string. */
  predicate Less(a: string, b: string)
    decreases |a|
  {
    if |b| == 0 then false
    else if |a| == 0 then true
    else if a[0] != b[0] then a[0] < b[0]
    else Less(a[1..], b[1..])
  }

  lemma {:induction false} LessIrreflexive(a: string)
    ensures !Less(a, a)
    decreases |a|
  {
    if |a| > 0 {
      LessIrreflexive(a[1..]);
    }
  }

  /** Any two strings are ordered one way, the other, or are equal. */
  lemma {:induction false} LessTrichotomy(a: string, b: string)
    ensures Less(a, b) || a == b || Less(b, a)
    decreases |a|
  {
    if |a| > 0 && |b| > 0 && a[0] == b[0] {
      LessTrichotomy(a[1..], b[1..]);
      if a[1..] == b[1..] {
        assert a == [a[0]] + a[1..];
        assert b == [b[0]] + b[1..];
      }
    }
  }

  lemma {:induction false} LessTransitive(a: string, b: string, c: string)
    requires Less(a, b) && Less(b, c)
    ensures Less(a, c)
    decreases |a|
  {
    if |a| > 0 && a[0] == b[0] && b[0] == c[0] {
      LessTransitive(a[1..], b[1..], c[1..]);
    }
  }

  lemma LessAsymmetric(a: string, b: string)
    requires Less(a, b)
    ensures !Less(b, a)
  {
    if Less(b, a) {
      LessTransitive(a, b, a);
      LessIrreflexive(a);
    }
  }

  /** A common prefix does not decide the order: the comparison is settled
      by what follows it. */
  lemma {:induction false} LessAfterCommonPrefix(a: string, b: string, i: nat)
    requires i <= |a| && i <= |b| && a[..i] == b[..i]
    ensures Less(a, b) == Less(a[i..], b[i..])
    decreases i
  {
    if i > 0 {
      assert a[0] == a[..i][0] == b[..i][0] == b[0];
      assert a[1..][..i - 1] == a[..i][1..] == b[..i][1..] == b[1..][..i - 1];
      LessAfterCommonPrefix(a[1..], b[1..], i - 1);
      assert a[1..][i - 1..] == a[i..];
      assert b[1..][i - 1..] == b[i..];
    }
  }

  /** Position `i` settles `a < b`: the strings agree before `i`, and there
      `a` has ended while `b` goes on, or `a` has the smaller code point. */
  predicate DecidedAt(a: string, b: string, i: nat) {
    i <= |a| && i < |b| && a[..i] == b[..i] && (i == |a| || a[i] < b[i])
  }

  /** A settling position is either the first one, where `a` is smaller, or a
      later one, so that the strings agree at the first. */
  lemma DecidedAtHead(a: string, b: string, i: nat)
    requires DecidedAt(a, b, i) && |a| > 0
    ensures a[0] < b[0] || a[0] == b[0]
  {
    if i > 0 {
      assert a[..i][0] == b[..i][0];
    }
  }

  /** The recursive order is the positional one: `a < b` exactly when some
      position settles it. */
  lemma {:induction false} LessIff(a: string, b: string)
    ensures Less(a, b) <==> exists i :: DecidedAt(a, b, i)
    decreases |a|
  {
    if |b| == 0 {
    } else if |a| == 0 {
      assert DecidedAt(a, b, 0);
    } else if a[0] != b[0] {
      if a[0] < b[0] {
        assert DecidedAt(a, b, 0);
      }
      forall i: nat | DecidedAt(a, b, i)
        ensures a[0] < b[0]
      {
        DecidedAtHead(a, b, i);
      }
    } else {
      var a', b' := a[1..], b[1..];
      LessIff(a', b');
      forall i: nat | DecidedAt(a, b, i)
        ensures DecidedAt(a', b', i - 1)
      {
        assert i > 0;
        assert a'[..i - 1] == a[..i][1..];
        assert b'[..i - 1] == b[..i][1..];
      }
      forall j: nat | DecidedAt(a', b', j)
        ensures DecidedAt(a, b, j + 1)
      {
        assert a[..j + 1] == [a[0]] + a'[..j];
        assert b[..j + 1] == [b[0]] + b'[..j];
      }
    }
  }

  /** A proper prefix is smaller than the longer string ("2024" < "2024-01-01"). */
  lemma PrefixLess(a: string, b: string)
    requires |a| < |b| && b[..|a|] == a
    ensures Less(a, b)
  {
    assert DecidedAt(a, b, |a|);
    LessIff(a, b);
  }

  /** The empty string is below every other string and above none. */
  lemma EmptyLeast(b: string)
    ensures Less("", b) <==> |b| > 0
    ensures !Less(b, "")
  {
  }

  /** "Not smaller than" chains: the order behind a descending sort. */
  lemma AtLeastTransitive(a: string, b: string, c: string)
    requires !Less(a, b) && !Less(b, c)
    ensures !Less(a, c)
  {
    LessTrichotomy(a, b);
    LessTrichotomy(b, c);
    if Less(a, c) {
      if Less(c, b) {
        LessTransitive(a, c, b);
      }
    }
  }

  /** ASCII lower-casing of one character. */
  function LowerChar(c: char): char {
    if 'A' <= c <= 'Z' then (c as int - 'A' as int + 'a' as int) as char else c
  }

  /** Lower-casing of a whole string, character by character. */
  function Lower(s: string): (r: string)
    ensures |r| == |s|
  {
    seq(|s|, i requires 0 <= i < |s| => LowerChar(s[i]))
  }

  /** The lowered string holds no upper-case letter, and lowering it again
      changes nothing. */
  lemma LowerIsLower(s: string)
    ensures forall i :: 0 <= i < |s| ==> !('A' <= Lower(s)[i] <= 'Z')
    ensures Lower(Lower(s)) == Lower(s)
  {
  }

  /** `s` begins with `p`. */
  predicate StartsWith(s: string, p: string) {
    |p| <= |s| && s[..|p|] == p
  }

  /** Python's `q in s` on strings: `q` occurs somewhere in `s`. */
  predicate Contains(s: string, q: string)
    decreases |s|
  {
    StartsWith(s, q) || (|s| > 0 && Contains(s[1..], q))
  }

  /** `q` occurs in `s` starting at position `i`. */
  predicate OccursAt(s: string, q: string, i: int) {
    0 <= i && i + |q| <= |s| && s[i..i + |q|] == q
  }

  /** The recursive substring test agrees with the positional definition. */
  lemma {:induction false} ContainsIff(s: string, q: string)
    ensures Contains(s, q) <==> exists i :: OccursAt(s, q, i)
    decreases |s|
  {
    if StartsWith(s, q) {
      assert OccursAt(s, q, 0);
    } else if |s| == 0 {
      assert |q| > 0;
    } else {
      ContainsIff(s[1..], q);
      if Contains(s[1..], q) {
        var j :| OccursAt(s[1..], q, j);
        assert s[1..][j..j + |q|] == s[j + 1..j + 1 + |q|];
        assert OccursAt(s, q, j + 1);
      }
      if exists i :: OccursAt(s, q, i) {
        var i :| OccursAt(s, q, i);
        if i > 0 {
          assert s[1..][i - 1..i - 1 + |q|] == s[i..i + |q|];
          assert OccursAt(s[1..], q, i - 1);
        }
      }
    }
  }

  /** A one-character query occurs only where that character does. */
  lemma {:induction false} ContainsChar(s: string, ch: char)
    ensures Contains(s, [ch]) <==> ch in s
    decreases |s|
  {
    if |s| > 0 {
      ContainsChar(s[1..], ch);
      assert s == [s[0]] + s[1..];
    }
  }

  /** The empty string occurs in every string. */
  lemma ContainsEmpty(s: string)
    ensures Contains(s, [])
  {
    assert s[..0] == [];
  }
}
